=== FILE: README.md ===
# gedit Markdown Preview: verified model of the plugin's rules

The gedit plugin `markdown-preview` shows an HTML rendering of the document
being edited in a WebKit view inside a gedit panel. Most of the plugin is
GTK, WebKit and gedit glue. This project models the self-contained rules
inside that glue and proves what they promise:

- **Navigation policy** (`onDecidePolicyCb`). WebKit asks the plugin about
  each navigation, new-window request and response. The plugin either uses
  the request, ignores it, or leaves it to WebKit. It may also open the URI
  in an external browser tab. `currentUri` holds the URI of the last
  navigation or new-window request it did not ignore, recorded when the
  decision is taken.
  `NavigationPolicy.Decide` is the decision table.
  `Plugin.PreviewPlugin.OnDecidePolicy` updates the field through the same
  local `ignore` flag as the source.
- **Context-menu pruning** (`onContextMenuCb`). A loop removes WebKit's
  stock items from the right-click menu in place. It keeps only a whitelist.
  Then the plugin appends its own entries. "Update Preview" is bound to the
  fixed "MarkdownPreview" action registered at activation; every other entry
  gets a newly registered window action.
- **Window action names** (`addWindowAction`). Actions are named
  `MarkdownAction0`, `MarkdownAction1`, … in registration order.
- **Base URI** (`uriToBase`). This is the directory part of the preview URI
  that is handed to WebKit: everything up to and including the last slash,
  or "/" when there is none.
- **Link tooltip** (`onMouseTargetChangedCb`). The label cuts long URLs to
  75 characters plus `...`. The x position is shifted left so the tooltip
  does not pass the window's right edge.
- **"Go to another URL"** (`goToAnotherUrl`). An absolute path typed into the
  dialog becomes a `file://` URI.

Modules:

- `Text` (text.dfy): `startswith`, the last-occurrence search used by
  `rpartition`, and `str(n)`.
- `Uris` (uri.dfy)
- `Tooltips` (tooltip.dfy)
- `NavigationPolicy` (policy.dfy)
- `ContextMenus` (menu.dfy): the menu as a class over a sequence of items.
- `Plugin` (plugin.dfy): the plugin object, with the fields `actions`,
  `currentUri` and `overLinkUrl`, and its callbacks.

Host objects are inputs:

- the active document's display path (`None` when no document is active);
- the pointer, window and tooltip geometry;
- the `externalBrowser` setting;
- the text entered in the dialog.

Calls into the host become outputs:

- the verdict;
- the URI opened in an external tab;
- the tooltip text and placement;
- the menu's items.

### Behaviour worth knowing

- A request for a non-"file://" URI goes to the external browser only when
  it is a link click and `externalBrowser == "1"`. Any other non-local
  request is left to WebKit, and `currentUri` records it.
- A new-window request is handled exactly like a navigation.
- The preview is rendered only through the update and clear actions; there
  is no timer and no automatic reload.

## Model

| member | source | states |
|---|---|---|
| `Text.LastIndexOf` | plugins/markdown-preview/markdown-preview/__init__.py:404 | the index found holds the character and no later index does; `None` only when the character does not occur |
| `Text.DecimalString` | plugins/markdown-preview/markdown-preview/__init__.py:159 | `str(n)` is a non-empty run of decimal digits, one digit exactly when n < 10, with no leading zero (its first digit is '0' only for 0) |
| `Text.DecimalStringValue` | plugins/markdown-preview/markdown-preview/__init__.py:159 | reading the digits of `str(n)` back as a decimal number gives n |
| `Text.DecimalStringInjective` | plugins/markdown-preview/markdown-preview/__init__.py:159 | different numbers have different decimal spellings |
| `Uris.UriToBase` | plugins/markdown-preview/markdown-preview/__init__.py:402-404 | the base always ends in "/"; it is "/" when the URI has no slash; otherwise it is the URI up to and including its last slash, and no slash follows that point |
| `Uris.UriToBaseIsPrefix` | plugins/markdown-preview/markdown-preview/__init__.py:402-404 | for a URI with a slash, the base is a prefix of the URI |
| `Uris.UriToBaseIdempotent` | plugins/markdown-preview/markdown-preview/__init__.py:402-404 | the base of a base is itself |
| `Uris.UriToBaseSpecialCases` | plugins/markdown-preview/markdown-preview/__init__.py:403-404 | the special cases named in the source: "file:///" is its own base, the display URI "file://Untitled Document N" of an unsaved document has base "file://", and "file:///a/b.md" has base "file:///a/" |
| `Uris.EnteredUrlTarget` | plugins/markdown-preview/markdown-preview/__init__.py:172-176 | an empty answer loads nothing; whatever is loaded never starts with "/" and ends with the entered text; an absolute path becomes exactly "file://" followed by the path; any other text is loaded unchanged |
| `Tooltips.TooltipText` | plugins/markdown-preview/markdown-preview/__init__.py:218 | the label is at most 78 characters; a URL of at most 75 characters is shown whole; a longer one shows its first 75 characters followed by "..." |
| `Tooltips.TooltipTextIdempotent` | plugins/markdown-preview/markdown-preview/__init__.py:218 | cutting a label that was already cut changes nothing |
| `Tooltips.TooltipPosition` | plugins/markdown-preview/markdown-preview/__init__.py:232-240 | y is the pointer's y + 15; the right edge never passes the window's right edge; x is never right of the pointer; x is unchanged when there is no overflow; on overflow the right edges coincide |
| `Tooltips.TooltipPositionIsRightmost` | plugins/markdown-preview/markdown-preview/__init__.py:235-238 | no x at or left of the pointer that fits inside the right edge lies further right than the chosen x |
| `Tooltips.TooltipStaysRightOfWindowEdge` | plugins/markdown-preview/markdown-preview/__init__.py:235-238 | if the pointer is inside the window and the tooltip is no wider than the window, the shift keeps the tooltip right of the window's left edge |
| `NavigationPolicy.Decide` | plugins/markdown-preview/markdown-preview/__init__.py:247-280 | a response is always used and any other non-navigation kind is always ignored, and neither changes `currentUri`; a navigation or new window to "file://" + the active document is ignored, leaving `currentUri`; an external tab is opened (exactly one, for the requested URI, and the request is ignored) if and only if the request is a non-"file://" link click while externalBrowser is "1"; the exact conditions for an ignore; an ignored request never changes `currentUri`; a navigation that is not ignored is left to WebKit and records its URI, except when the document lookup fails |
| `NavigationPolicy.DecideScenarios` | plugins/markdown-preview/markdown-preview/__init__.py:255-272 | the previewed file is ignored; a web link with the external browser on opens a tab and is ignored; with it off, the link is left to WebKit and recorded; "file:///" with no document open changes nothing |
| `ContextMenus.Filtered` | plugins/markdown-preview/markdown-preview/__init__.py:292-307 | pruning never lengthens the menu, and every item it keeps is a survivor: COPY_LINK_TO_CLIPBOARD, GO_BACK, GO_FORWARD or STOP, or RELOAD while `currentUri` does not start with "file:///" |
| `ContextMenus.FilteredConcat` | plugins/markdown-preview/markdown-preview/__init__.py:292-307 | pruning distributes over concatenation, so survivors keep their relative order |
| `ContextMenus.FilteredCount` | plugins/markdown-preview/markdown-preview/__init__.py:295-307 | each surviving kind of item is kept exactly as often as it occurred; any other item is kept zero times |
| `ContextMenus.FilteredKeepsSurvivors` | plugins/markdown-preview/markdown-preview/__init__.py:295-299 | a menu of survivors only is left exactly as it is |
| `ContextMenus.FilteredIdempotent` | plugins/markdown-preview/markdown-preview/__init__.py:292-307 | pruning a pruned menu changes nothing |
| `ContextMenus.ReloadSurvivesIff` | plugins/markdown-preview/markdown-preview/__init__.py:300-303 | RELOAD is in the pruned menu if and only if it was in the menu and `currentUri` does not start with "file:///" |
| `ContextMenus.KeepStep` | plugins/markdown-preview/markdown-preview/__init__.py:295-302 | moving past a surviving item with the first i items pruned in place leaves the first i + 1 pruned, with one more survivor |
| `ContextMenus.DropStep` | plugins/markdown-preview/markdown-preview/__init__.py:303-307 | removing a non-surviving item at the position just after the survivors leaves the first i + 1 items pruned |
| `ContextMenus.ContextMenu.Remove` | plugins/markdown-preview/markdown-preview/__init__.py:305 | the menu loses exactly the item at the given position; the rest keep their order |
| `ContextMenus.ContextMenu.Append` | plugins/markdown-preview/markdown-preview/__init__.py:317 | the item is added at the end and nothing else changes |
| `Plugin.ActionName` | plugins/markdown-preview/markdown-preview/__init__.py:159 | every generated name is "MarkdownAction" followed by at least one character |
| `Plugin.ActionNameInjective` | plugins/markdown-preview/markdown-preview/__init__.py:159 | actions registered at different list lengths get different names |
| `Plugin.ActionNameNoClash` | plugins/markdown-preview/markdown-preview/__init__.py:150-159 | no generated name equals the fixed "MarkdownPreview" or "ToggleTab" action names |
| `Plugin.AppendedEntriesUseFreshActions` | plugins/markdown-preview/markdown-preview/__init__.py:309-339 | no appended entry is bound to a name already in `actions`: the 3 or 4 entries bound to newly registered actions get names past the end of the list, and "update" is bound to the fixed "MarkdownPreview" action registered at activation, which no generated name equals |
| `Plugin.AppendedEntriesDistinctActions` | plugins/markdown-preview/markdown-preview/__init__.py:309-339 | no two appended entries share an action name |
| `Plugin.GoToActiveDocumentIsIgnored` | plugins/markdown-preview/markdown-preview/__init__.py:172-176 | loading the active document's own absolute path from the dialog yields "file://" + path, and the policy ignores that request without changing `currentUri` or opening a tab |
| `Plugin.PreviewPlugin.constructor` | plugins/markdown-preview/markdown-preview/__init__.py:96-101 | a new plugin has no actions, an empty `currentUri` and no hovered link, and keeps the given externalBrowser setting |
| `Plugin.PreviewPlugin.AddWindowAction` | plugins/markdown-preview/markdown-preview/__init__.py:158-163 | appends exactly one action, named after the list's old length; the name is new; the invariant "action i is named after i" is kept |
| `Plugin.PreviewPlugin.OnMouseTargetChanged` | plugins/markdown-preview/markdown-preview/__init__.py:208-242 | over a link: records the URL and shows its cut label at the clamped position; elsewhere: clears the hovered link and shows no tooltip |
| `Plugin.PreviewPlugin.OnDecidePolicy` | plugins/markdown-preview/markdown-preview/__init__.py:247-280 | the verdict, the external tab and the new `currentUri` are exactly those of the decision table; the handler always returns false |
| `Plugin.PreviewPlugin.OnContextMenu` | plugins/markdown-preview/markdown-preview/__init__.py:288-339 | the menu becomes its surviving items in their original order, followed by the plugin's entries; 3 or 4 fresh actions (4 while a link is hovered) are registered, and earlier actions are kept |
| `Plugin.PreviewPlugin.PruneMenu` | plugins/markdown-preview/markdown-preview/__init__.py:292-307 | after the in-place removal loop, the menu holds exactly the surviving items in their original order |
| `Plugin.PreviewPlugin.AppendEntries` | plugins/markdown-preview/markdown-preview/__init__.py:309-339 | appends the optional "open link" entry (embedded if externalBrowser is "1", otherwise external), then "copy URL", "go to URL", "update" and "clear"; "update" reuses the fixed "MarkdownPreview" action and every other entry is bound to a newly registered action; the appended items are exactly the closed form `Plugin.AppendedEntries`, of which the two lemmas above prove freshness and distinctness; the action-name invariant is kept |

## Left out

- Widget and panel management is GTK/gedit UI and is not modelled. This
  covers `do_activate`, `do_deactivate`, `addWindowActions`,
  `addMarkdownPreviewTab`, `removeMarkdownPreviewTab` and `toggleTab`.
- `MarkdownPreviewMenu` only registers accelerators and menu items with the
  host, so it is not modelled.
- `updatePreview` is not modelled. The Markdown-to-HTML conversion is done
  by an external library, and `load_alternate_html` is a WebKit call. Only
  `uriToBase`, which it calls, is modelled.
- Module-level configuration is not modelled: the template file, the XDG
  lookup, and the ini-file read and write. The `externalBrowser` setting is
  a constructor argument of the plugin object.
- The localised labels are not modelled. A menu entry records which entry
  it is and the name of its action. The Python callback bound to the action
  is not modelled.
- Dialogs and the clipboard are not modelled: `goToAnotherUrlDialog`,
  `copyCurrentUrl` and the modal `dialog.run()`. The dialog's answer is an
  input of `EnteredUrlTarget`. The `load_uri` call is represented by the URI
  it would load.
- `openInEmbeddedBrowser` and `openInExternalBrowser` are only triggered
  through window actions and are not modelled. `webbrowser.open_new_tab` in
  `onDecidePolicyCb` is the `openTab` output.
- The tooltip window is not modelled: its creation, colours,
  `urlTooltipVisible` and its destruction in `onDecidePolicyCb` and
  `onContextMenuCb`. Its width after layout is an input. The code creates
  a new popup on every link hover (line 213) but destroys only the latest
  one (lines 244-245), so moving from one link straight to another can leave
  an earlier popup on screen; `Plugin.PreviewPlugin.OnMouseTargetChanged`
  returns only the tooltip of the current call and does not capture that.
- `menu.remove(item)` removes an object by identity; the model removes by
  position. The item at that position is the one the loop is looking at,
  which the loop invariant proves.
- The shared action list: in Python, `actions` is a class attribute,
  so one list is shared by the plugin objects of all gedit windows. The
  model gives each object its own list, so names are sequential per object
  rather than across windows.
- The no-op branches of `onContextMenuCb` are not modelled, because they
  change nothing. These are the `currentUri == "file:///"` test and the
  "no documents" test.
- NavigationPolicy.Decide: a local request while no document is active is
  not decided in the code. Line 257 calls `get_uri_for_display()` on
  `None`, which raises before the callback decides anything. The model
  gives the verdict `Undecided` and leaves `currentUri` unchanged.
- Plugin.PreviewPlugin.OnDecidePolicy: in the same no-document case, the
  raised exception is modelled as a return of `handled == false` with
  `currentUri` unchanged, which is what the signal machinery reports for a
  handler that raised.

=== FILE: menu.dfy ===
/** The embedded view's right-click menu and the rule `onContextMenuCb` uses
    to prune WebKit's stock entries from it. */
module ContextMenus {
  import opened Text

  /** WebKit2.ContextMenuAction values the plugin tests for; every other
      stock action (including CUSTOM) is `OtherStock`. */
  datatype StockAction =
    CopyLinkToClipboard | GoBack | GoForward | Stop | Reload | OtherStock(code: int)

  /** The plugin's own entries, in the order it appends them. */
  datatype PluginEntry =
    OpenInEmbeddedBrowser | OpenInExternalBrowser | CopyCurrentUrl | GoToAnotherUrl
    | UpdatePreview | ClearPreview

  /** A menu item: a WebKit item with a stock action, an item whose stock
      action cannot be read (the `except` branch), or one of the plugin's
      entries bound to a window action of the given name. */
  datatype MenuItem = Stock(action: StockAction) | Unreadable | Entry(entry: PluginEntry, actionName: string)

  /** Reloading is withdrawn while `currentUri` is a local file. */
  const LocalPrefix: string := "file:///"

  /** Stock entries kept whatever `currentUri` is. */
  predicate AlwaysKept(a: StockAction) {
    a == CopyLinkToClipboard || a == GoBack || a == GoForward || a == Stop
  }

  /** Whether an item of WebKit's menu stays in the pruned menu. A plugin
      entry carries the CUSTOM stock action, so it is not kept either. */
  predicate Survives(item: MenuItem, currentUri: string) {
    item.Stock? &&
    (AlwaysKept(item.action) || (item.action == Reload && !StartsWith(currentUri, LocalPrefix)))
  }

  /** The items that survive pruning, in their original order. */
  function Filtered(items: seq<MenuItem>, currentUri: string): (kept: seq<MenuItem>)
    ensures |kept| <= |items|
    ensures forall j :: 0 <= j < |kept| ==> Survives(kept[j], currentUri)
  {
    if items == [] then []
    else
      var last := items[|items| - 1];
      Filtered(items[..|items| - 1], currentUri) + (if Survives(last, currentUri) then [last] else [])
  }

  /** Pruning one more item keeps what was kept and adds the item when it
      survives. */
  lemma FilteredSnoc(items: seq<MenuItem>, x: MenuItem, currentUri: string)
    ensures Filtered(items + [x], currentUri) ==
      Filtered(items, currentUri) + (if Survives(x, currentUri) then [x] else [])
  {
    assert (items + [x])[..|items|] == items;
  }

  /** One step of pruning in place, for an item that stays: with the first
      `i` items of `snapshot` pruned in `items`, moving past the survivor
      prunes the first `i + 1`. */
  lemma KeepStep(items: seq<MenuItem>, snapshot: seq<MenuItem>, i: nat, currentUri: string)
    requires i < |snapshot| && Survives(snapshot[i], currentUri)
    requires items == Filtered(snapshot[..i], currentUri) + snapshot[i..]
    ensures items == Filtered(snapshot[..i + 1], currentUri) + snapshot[i + 1..]
    ensures |Filtered(snapshot[..i + 1], currentUri)| == |Filtered(snapshot[..i], currentUri)| + 1
  {
    assert snapshot[..i + 1] == snapshot[..i] + [snapshot[i]];
    FilteredSnoc(snapshot[..i], snapshot[i], currentUri);
  }

  /** One step of pruning in place, for an item that goes: removing it at
      position `k`, just after the survivors so far, prunes the first `i + 1`. */
  lemma DropStep(items: seq<MenuItem>, snapshot: seq<MenuItem>, i: nat, k: nat, currentUri: string)
    requires i < |snapshot| && !Survives(snapshot[i], currentUri)
    requires items == Filtered(snapshot[..i], currentUri) + snapshot[i..]
    requires k == |Filtered(snapshot[..i], currentUri)|
    ensures k < |items|
    ensures items[..k] + items[k + 1..] == Filtered(snapshot[..i + 1], currentUri) + snapshot[i + 1..]
    ensures Filtered(snapshot[..i + 1], currentUri) == Filtered(snapshot[..i], currentUri)
  {
    assert snapshot[..i + 1] == snapshot[..i] + [snapshot[i]];
    FilteredSnoc(snapshot[..i], snapshot[i], currentUri);
    assert items[..k] == Filtered(snapshot[..i], currentUri);
    assert items[k + 1..] == snapshot[i + 1..];
  }

  /** Pruning works item by item: pruning a concatenation prunes each part
      and keeps the parts in order, so survivors keep their relative order. */
  lemma {:induction false} FilteredConcat(a: seq<MenuItem>, b: seq<MenuItem>, currentUri: string)
    ensures Filtered(a + b, currentUri) == Filtered(a, currentUri) + Filtered(b, currentUri)
  {
    if b == [] {
      assert a + b == a;
    } else {
      var b' := b[..|b| - 1];
      assert (a + b)[..|a + b| - 1] == a + b';
      FilteredConcat(a, b', currentUri);
    }
  }

  /** Every surviving kind of item is kept as often as it occurred, and no
      other kind is kept at all. */
  lemma {:induction false} FilteredCount(items: seq<MenuItem>, currentUri: string, x: MenuItem)
    ensures multiset(Filtered(items, currentUri))[x] ==
      if Survives(x, currentUri) then multiset(items)[x] else 0
  {
    if items != [] {
      var init, last := items[..|items| - 1], items[|items| - 1];
      assert items == init + [last];
      FilteredCount(init, currentUri, x);
    }
  }

  /** A menu that holds only survivors is left as it is. */
  lemma {:induction false} FilteredKeepsSurvivors(items: seq<MenuItem>, currentUri: string)
    requires forall i :: 0 <= i < |items| ==> Survives(items[i], currentUri)
    ensures Filtered(items, currentUri) == items
  {
    if items != [] {
      var init := items[..|items| - 1];
      FilteredKeepsSurvivors(init, currentUri);
      assert init + [items[|items| - 1]] == items;
    }
  }

  /** Pruning twice prunes nothing more. */
  lemma {:induction false} FilteredIdempotent(items: seq<MenuItem>, currentUri: string)
    ensures Filtered(Filtered(items, currentUri), currentUri) == Filtered(items, currentUri)
  {
    FilteredKeepsSurvivors(Filtered(items, currentUri), currentUri);
  }

  /** "Reload" is left in the menu exactly when it was there and
      `currentUri` is not a local file. */
  lemma {:induction false} ReloadSurvivesIff(items: seq<MenuItem>, currentUri: string)
    ensures Stock(Reload) in Filtered(items, currentUri) <==>
      Stock(Reload) in items && !StartsWith(currentUri, LocalPrefix)
  {
    FilteredCount(items, currentUri, Stock(Reload));
  }

  /** The right-click menu WebKit hands to the callback, changed in place. */
  class ContextMenu {
    var items: seq<MenuItem>

    constructor (items: seq<MenuItem>)
      ensures this.items == items
    {
      this.items := items;
    }

    /** `menu.remove(item)` for the item at position `k`. */
    method Remove(k: nat)
      requires k < |items|
      modifies this
      ensures items == old(items[..k] + items[k + 1..])
    {
      items := items[..k] + items[k + 1..];
    }

    /** `menu.append(item)`. */
    method Append(item: MenuItem)
      modifies this
      ensures items == old(items) + [item]
    {
      items := items + [item];
    }
  }
}

=== FILE: plugin.dfy ===
/** The plugin object of one gedit window (`MarkdownPreviewPlugin`): the
    state its callbacks update, and the callbacks that hold the plugin's
    rules. */
module Plugin {
  import opened Wrappers
  import opened Text
  import opened Uris
  import opened Tooltips
  import opened NavigationPolicy
  import opened ContextMenus

  /** Names of the two window actions registered at activation. */
  const UpdateActionName: string := "MarkdownPreview"
  const ToggleActionName: string := "ToggleTab"
  const ActionPrefix: string := "MarkdownAction"

  /** The name `addWindowAction` gives the action it registers when `n`
      actions are already in the list. */
  function ActionName(n: nat): (name: string)
    ensures StartsWith(name, ActionPrefix) && |ActionPrefix| < |name|
  {
    ActionPrefix + DecimalString(n)
  }

  /** Actions registered at different list lengths have different names. */
  lemma ActionNameInjective(m: nat, n: nat)
    requires ActionName(m) == ActionName(n)
    ensures m == n
  {
    assert ActionName(m)[|ActionPrefix|..] == DecimalString(m);
    assert ActionName(n)[|ActionPrefix|..] == DecimalString(n);
    DecimalStringInjective(m, n);
  }

  /** No generated name collides with the two fixed action names. */
  lemma ActionNameNoClash(n: nat)
    ensures ActionName(n) != UpdateActionName
    ensures ActionName(n) != ToggleActionName
  {
    assert ActionName(n)[8] == 'A' && UpdateActionName[8] == 'P';
    assert ActionName(n)[0] == 'M' && ToggleActionName[0] == 'T';
  }

  /** The entries `onContextMenuCb` appends after pruning, when `n` actions
      were registered before: the "open link" entry only while a link is
      hovered, then "copy", "go to", "update" (bound to the fixed update
      action) and "clear". */
  function AppendedEntries(overLink: bool, externalBrowser: string, n: nat): (es: seq<MenuItem>) {
    var first := n + (if overLink then 1 else 0);
    (if overLink then
       [Entry(if externalBrowser == ExternalBrowserOn then OpenInEmbeddedBrowser else OpenInExternalBrowser,
              ActionName(n))]
     else [])
    + [Entry(CopyCurrentUrl, ActionName(first)),
       Entry(GoToAnotherUrl, ActionName(first + 1)),
       Entry(UpdatePreview, UpdateActionName),
       Entry(ClearPreview, ActionName(first + 2))]
  }

  /** No entry a context menu appends is bound to a name already in the
      list of generated actions: the entries bound to newly registered
      actions get names past the end of the list, and "update" reuses the
      fixed action registered at activation, which no generated name equals. */
  lemma AppendedEntriesUseFreshActions(overLink: bool, externalBrowser: string, actions: seq<string>)
    requires forall i :: 0 <= i < |actions| ==> actions[i] == ActionName(i)
    ensures forall e :: e in AppendedEntries(overLink, externalBrowser, |actions|) ==>
      e.Entry? && e.actionName !in actions
    ensures Entry(UpdatePreview, UpdateActionName) in AppendedEntries(overLink, externalBrowser, |actions|)
  {
    var n := |actions|;
    var first := n + (if overLink then 1 else 0);
    FreshActionName(actions, first);
    FreshActionName(actions, first + 1);
    FreshActionName(actions, first + 2);
    assert UpdateActionName !in actions by {
      forall i | 0 <= i < n ensures actions[i] != UpdateActionName {
        ActionNameNoClash(i);
      }
    }
    if overLink {
      FreshActionName(actions, n);
    }
  }

  /** No two entries appended to one context menu share an action. */
  lemma AppendedEntriesDistinctActions(overLink: bool, externalBrowser: string, n: nat)
    ensures var es := AppendedEntries(overLink, externalBrowser, n);
      forall i, j :: 0 <= i < j < |es| ==> es[i].actionName != es[j].actionName
  {
    var first := n + (if overLink then 1 else 0);
    var es := AppendedEntries(overLink, externalBrowser, n);
    var tail := [ActionName(first), ActionName(first + 1), UpdateActionName, ActionName(first + 2)];
    DistinctTail(first);
    var names := if overLink then [ActionName(n)] + tail else tail;
    assert |es| == |names|;
    assert forall i :: 0 <= i < |es| ==> es[i].actionName == names[i];
    if overLink {
      ActionNameNoClash(n);
      ActionNamesDiffer(n, first);
      ActionNamesDiffer(n, first + 1);
      ActionNamesDiffer(n, first + 2);
      assert forall j :: 0 < j < |names| ==> names[j] == tail[j - 1];
    }
  }

  /** The four names of the entries appended whether or not a link is
      hovered are pairwise distinct. */
  lemma DistinctTail(first: nat)
    ensures var names := [ActionName(first), ActionName(first + 1), UpdateActionName, ActionName(first + 2)];
      forall i, j :: 0 <= i < j < |names| ==> names[i] != names[j]
  {
    ActionNamesDiffer(first, first + 1);
    ActionNamesDiffer(first, first + 2);
    ActionNamesDiffer(first + 1, first + 2);
    ActionNameNoClash(first);
    ActionNameNoClash(first + 1);
    ActionNameNoClash(first + 2);
  }

  /** A name generated at or after the current list length is not in the list. */
  lemma FreshActionName(actions: seq<string>, k: nat)
    requires forall i :: 0 <= i < |actions| ==> actions[i] == ActionName(i)
    requires |actions| <= k
    ensures ActionName(k) !in actions
  {
    if ActionName(k) in actions {
      var i :| 0 <= i < |actions| && actions[i] == ActionName(k);
      ActionNameInjective(i, k);
    }
  }

  /** Different list lengths give different names. */
  lemma ActionNamesDiffer(a: nat, b: nat)
    requires a != b
    ensures ActionName(a) != ActionName(b)
  {
    if ActionName(a) == ActionName(b) {
      ActionNameInjective(a, b);
    }
  }

  /** Opening the active document's own path from the "Go to another URL"
      dialog is a navigation to the previewed file, which the policy
      ignores: `currentUri` keeps its value and nothing is opened. */
  lemma GoToActiveDocumentIsIgnored(path: string, externalBrowser: string, current: string, nav: NavigationType)
    requires StartsWith(path, "/")
    ensures var target := EnteredUrlTarget(path);
      target == Some(FileScheme + path) &&
      Decide(NavigationAction, nav, target.value, Some(path), externalBrowser, current)
        == PolicyOutcome(Ignore, None, current)
  {
  }

  /** `MarkdownPreviewPlugin`: the URI of the last navigation or new-window
      request it did not ignore, the hovered link and the actions registered
      so far. */
  class PreviewPlugin {
    /** The `externalBrowser` setting, fixed once the configuration is read. */
    const externalBrowser: string
    /** Names of the actions `addWindowAction` registered, oldest first. */
    var actions: seq<string>
    /** The URI of the last navigation or new-window request that was not
        ignored, recorded when the decision is taken, not once it loads. */
    var currentUri: string
    var overLinkUrl: string

    /** The i-th registered action is named after i. */
    ghost predicate Valid()
      reads this
    {
      forall i :: 0 <= i < |actions| ==> actions[i] == ActionName(i)
    }

    constructor (externalBrowser: string)
      ensures Valid()
      ensures this.externalBrowser == externalBrowser
      ensures actions == [] && currentUri == "" && overLinkUrl == ""
    {
      this.externalBrowser := externalBrowser;
      actions, currentUri, overLinkUrl := [], "", "";
    }

    /** `addWindowAction`: registers an action named after the number of
        actions so far and returns its name, which no earlier action has. */
    method AddWindowAction() returns (name: string)
      requires Valid()
      modifies this`actions
      ensures Valid()
      ensures name == ActionName(|old(actions)|) && name !in old(actions)
      ensures actions == old(actions) + [name]
    {
      name := ActionPrefix + DecimalString(|actions|);
      if name in actions {
        var i :| 0 <= i < |actions| && actions[i] == name;
        ActionNameInjective(i, |actions|);
      }
      actions := actions + [name];
    }

    /** `onMouseTargetChangedCb`: remembers the hovered link and returns the
        tooltip to show for it, or forgets the link and shows none. */
    method OnMouseTargetChanged(link: Option<string>, g: Geometry) returns (tooltip: Option<(string, Placement)>)
      modifies this`overLinkUrl
      ensures overLinkUrl == (if link.Some? then link.value else "")
      ensures tooltip.Some? <==> link.Some?
      ensures link.Some? ==> tooltip == Some((TooltipText(link.value), TooltipPosition(g)))
    {
      match link
      case Some(url) =>
        overLinkUrl := url;
        tooltip := Some((TooltipText(url), TooltipPosition(g)));
      case None =>
        overLinkUrl := "";
        tooltip := None;
    }

    /** `onDecidePolicyCb`: applies the decision table to `currentUri` and
        reports the verdict, the external tab opened, and the handler's
        return value (always false, so other handlers still run). */
    method OnDecidePolicy(kind: DecisionKind, nav: NavigationType, uri: string, activeDoc: Option<string>)
      returns (verdict: Verdict, openTab: Option<string>, handled: bool)
      modifies this`currentUri
      ensures PolicyOutcome(verdict, openTab, currentUri)
        == Decide(kind, nav, uri, activeDoc, externalBrowser, old(currentUri))
      ensures !handled
    {
      verdict, openTab, handled := Undecided, None, false;
      if kind == NavigationAction || kind == NewWindowAction {
        var ignore := false;
        if StartsWith(uri, FileScheme) {
          match activeDoc
          case None =>
            // the display-path lookup raises: nothing after it runs
            return;
          case Some(path) =>
            if uri == FileScheme + path {
              verdict := Ignore;
              ignore := true;
            }
        } else if nav == LinkClicked && externalBrowser == ExternalBrowserOn {
          openTab := Some(uri);
          verdict := Ignore;
          ignore := true;
        }
        if !ignore {
          currentUri := uri;
        }
      } else if kind == Response {
        verdict := Use;
      } else {
        verdict := Ignore;
      }
    }

    /** `onContextMenuCb`: drops every WebKit item that does not survive
        pruning, keeping the rest in order, then appends the plugin's
        entries: "update" reuses the fixed "MarkdownPreview" action, and
        every other entry is bound to a freshly registered action. */
    method OnContextMenu(menu: ContextMenu)
      requires Valid()
      modifies this`actions, menu
      ensures Valid()
      ensures menu.items == Filtered(old(menu.items), currentUri)
        + AppendedEntries(overLinkUrl != "", externalBrowser, |old(actions)|)
      ensures |actions| == |old(actions)| + (if overLinkUrl != "" then 4 else 3)
      ensures actions[..|old(actions)|] == old(actions)
    {
      PruneMenu(menu);
      AppendEntries(menu);
    }

    /** The loop of `onContextMenuCb` over a copy of the menu's items: an item
        that does not survive is removed from the menu itself; position `k`
        is where the current item now sits. */
    method PruneMenu(menu: ContextMenu)
      modifies menu
      ensures menu.items == Filtered(old(menu.items), currentUri)
    {
      var snapshot := menu.items;
      var i, k := 0, 0;
      while i < |snapshot|
        invariant 0 <= i <= |snapshot|
        invariant k == |Filtered(snapshot[..i], currentUri)|
        invariant menu.items == Filtered(snapshot[..i], currentUri) + snapshot[i..]
      {
        match snapshot[i] {
          case Stock(action) =>
            if action == CopyLinkToClipboard || action == GoBack || action == GoForward || action == Stop {
              KeepStep(menu.items, snapshot, i, currentUri);
              k := k + 1;
            } else if action == StockAction.Reload {
              if StartsWith(currentUri, LocalPrefix) {
                DropStep(menu.items, snapshot, i, k, currentUri);
                menu.Remove(k);
              } else {
                KeepStep(menu.items, snapshot, i, currentUri);
                k := k + 1;
              }
            } else {
              DropStep(menu.items, snapshot, i, k, currentUri);
              menu.Remove(k);
            }
          case _ =>
            // an item that is not a WebKit stock item: a custom item (the plugin's own
            // entries carry CUSTOM) leaves through the final `else`, and one whose stock
            // action cannot be read through the `except` branch
            DropStep(menu.items, snapshot, i, k, currentUri);
            menu.Remove(k);
        }
        i := i + 1;
      }
      assert snapshot[..i] == snapshot;
    }

    /** The appending half of `onContextMenuCb`. */
    method AppendEntries(menu: ContextMenu)
      requires Valid()
      modifies this`actions, menu
      ensures Valid()
      ensures menu.items == old(menu.items) + AppendedEntries(overLinkUrl != "", externalBrowser, |old(actions)|)
      ensures |actions| == |old(actions)| + (if overLinkUrl != "" then 4 else 3)
      ensures actions[..|old(actions)|] == old(actions)
    {
      if overLinkUrl != "" {
        var name := AddWindowAction();
        var entry := if externalBrowser == ExternalBrowserOn then OpenInEmbeddedBrowser else OpenInExternalBrowser;
        menu.Append(Entry(entry, name));
      }
      var name := AddWindowAction();
      menu.Append(Entry(CopyCurrentUrl, name));
      name := AddWindowAction();
      menu.Append(Entry(GoToAnotherUrl, name));
      menu.Append(Entry(UpdatePreview, UpdateActionName));
      name := AddWindowAction();
      menu.Append(Entry(ClearPreview, name));
    }
  }
}

=== FILE: policy.dfy ===
/** The decision the plugin takes when the embedded WebKit view asks whether
    to go ahead with a navigation, a new window or a response
    (`onDecidePolicyCb`). */
module NavigationPolicy {
  import opened Wrappers
  import opened Text

  /** WebKit2.PolicyDecisionType, with a catch-all for any other kind. */
  datatype DecisionKind = NavigationAction | NewWindowAction | Response | OtherDecision

  /** WebKit2.NavigationType. */
  datatype NavigationType =
    LinkClicked | FormSubmitted | BackForward | Reload | FormResubmitted | OtherNavigation

  /** What happens to the request: `polDec.use()`, `polDec.ignore()`, or
      neither, which leaves it to WebKit's default handling. */
  datatype Verdict = Use | Ignore | Undecided

  /** The effects of one callback: the verdict, the URL opened in a new tab of
      the external browser (if any), and the new value of `currentUri`. */
  datatype PolicyOutcome = PolicyOutcome(verdict: Verdict, openTab: Option<string>, currentUri: string)

  const FileScheme: string := "file://"
  /** The `externalBrowser` setting value that turns external opening on. */
  const ExternalBrowserOn: string := "1"

  predicate IsNavigation(kind: DecisionKind) {
    kind == NavigationAction || kind == NewWindowAction
  }

  /** The request asks for the active document itself: its display path
      behind the file scheme. */
  predicate IsActiveDocument(uri: string, activeDoc: Option<string>) {
    activeDoc.Some? && uri == FileScheme + activeDoc.value
  }

  /** A local request while no document is active: looking up the active
      document's path fails, and the callback stops before deciding
      anything or touching `currentUri`. */
  predicate LookupFails(uri: string, activeDoc: Option<string>) {
    StartsWith(uri, FileScheme) && activeDoc.None?
  }

  /** A link to a non-local page while the external browser is switched on. */
  predicate GoesExternal(nav: NavigationType, uri: string, externalBrowser: string) {
    !StartsWith(uri, FileScheme) && nav == LinkClicked && externalBrowser == ExternalBrowserOn
  }

  /** The decision table of `onDecidePolicyCb`; `current` is `currentUri`
      before the call. */
  function Decide(kind: DecisionKind, nav: NavigationType, uri: string,
                  activeDoc: Option<string>, externalBrowser: string, current: string): (r: PolicyOutcome)
    // responses are always used, anything that is neither a navigation nor a response is always ignored
    ensures kind == Response ==> r == PolicyOutcome(Use, None, current)
    ensures !IsNavigation(kind) && kind != Response ==> r == PolicyOutcome(Ignore, None, current)
    // navigation to the document being previewed is ignored and leaves currentUri alone
    ensures IsNavigation(kind) && IsActiveDocument(uri, activeDoc) ==>
      r == PolicyOutcome(Ignore, None, current)
    // exactly one external tab, for exactly the external-link case
    ensures r.openTab.Some? <==> IsNavigation(kind) && GoesExternal(nav, uri, externalBrowser)
    ensures r.openTab.Some? ==> r.openTab == Some(uri) && r.verdict == Ignore && r.currentUri == current
    // an ignored request never changes currentUri; one that is not ignored records its URI
    ensures r.verdict == Ignore ==> r.currentUri == current
    ensures r.verdict == Ignore <==>
      (!IsNavigation(kind) && kind != Response) ||
      (IsNavigation(kind) && (IsActiveDocument(uri, activeDoc) || GoesExternal(nav, uri, externalBrowser)))
    ensures IsNavigation(kind) && r.verdict != Ignore ==>
      r.verdict == Undecided && r.currentUri == (if LookupFails(uri, activeDoc) then current else uri)
  {
    if IsNavigation(kind) then
      if StartsWith(uri, FileScheme) then
        match activeDoc
        case None => PolicyOutcome(Undecided, None, current)
        case Some(path) =>
          if uri == FileScheme + path then PolicyOutcome(Ignore, None, current)
          else PolicyOutcome(Undecided, None, uri)
      else if nav == LinkClicked && externalBrowser == ExternalBrowserOn then
        PolicyOutcome(Ignore, Some(uri), current)
      else PolicyOutcome(Undecided, None, uri)
    else if kind == Response then PolicyOutcome(Use, None, current)
    else PolicyOutcome(Ignore, None, current)
  }

  /** The scenarios a reader checks first: the previewed file itself, a web
      page with and without the external browser, and the blank preview
      "file:///" while no document is open. */
  lemma DecideScenarios(current: string)
    ensures Decide(NavigationAction, LinkClicked, "file:///a/b.md", Some("/a/b.md"), "0", current)
      == PolicyOutcome(Ignore, None, current)
    ensures Decide(NavigationAction, LinkClicked, "https://example.com", Some("/a/b.md"), "1", current)
      == PolicyOutcome(Ignore, Some("https://example.com"), current)
    ensures Decide(NavigationAction, LinkClicked, "https://example.com", Some("/a/b.md"), "0", current)
      == PolicyOutcome(Undecided, None, "https://example.com")
    ensures Decide(NavigationAction, OtherNavigation, "file:///", None, "1", current)
      == PolicyOutcome(Undecided, None, current)
  {
    assert StartsWith("file:///a/b.md", FileScheme);
    assert "https://example.com"[4] == 's';
    assert StartsWith("file:///", FileScheme);
  }
}

=== FILE: text.dfy ===
/** The Option datatype used wherever the plugin gets back "nothing" (an empty
    dialog answer, a missing active document). */
module Wrappers {
  datatype Option<+T> = None | Some(value: T)
}

/** String helpers for the Python built-ins the plugin relies on:
    `str.startswith`, the search behind `str.rpartition`, and `str(n)` for a
    non-negative integer. */
module Text {
  import opened Wrappers

  /** Python's `s.startswith(prefix)`. */
  predicate StartsWith(s: string, prefix: string) {
    |prefix| <= |s| && s[..|prefix|] == prefix
  }

  /** Position of the last occurrence of `c` in `s`, as `str.rfind` finds it. */
  function LastIndexOf(s: string, c: char): (r: Option<nat>)
    ensures r.None? ==> forall j :: 0 <= j < |s| ==> s[j] != c
    ensures r.Some? ==> r.value < |s| && s[r.value] == c
    ensures r.Some? ==> forall j :: r.value < j < |s| ==> s[j] != c
  {
    if s == [] then None
    else if s[|s| - 1] == c then Some(|s| - 1)
    else LastIndexOf(s[..|s| - 1], c)
  }

  /** The decimal digit character for 0 <= d < 10. */
  function Digit(d: nat): (c: char)
    requires d < 10
    ensures '0' <= c <= '9'
  {
    ('0' as int + d) as char
  }

  /** Python's `str(n)` for a non-negative integer: its decimal digits, most
      significant first, with no leading zero. */
  function DecimalString(n: nat): (s: string)
    ensures 1 <= |s|
    ensures forall i :: 0 <= i < |s| ==> '0' <= s[i] <= '9'
    ensures n < 10 <==> |s| == 1
    ensures s[0] == '0' <==> n == 0
  {
    if n < 10 then [Digit(n)] else DecimalString(n / 10) + [Digit(n % 10)]
  }

  /** The number a string of decimal digits spells, most significant first. */
  function DigitsValue(s: string): (v: nat)
    requires forall i :: 0 <= i < |s| ==> '0' <= s[i] <= '9'
  {
    if s == [] then 0
    else DigitsValue(s[..|s| - 1]) * 10 + (s[|s| - 1] as int - '0' as int)
  }

  /** `str(n)` spells n: reading its digits back gives n. */
  lemma {:induction false} DecimalStringValue(n: nat)
    ensures DigitsValue(DecimalString(n)) == n
  {
    var s := DecimalString(n);
    if n < 10 {
      assert s[..0] == [];
    } else {
      var a := DecimalString(n / 10);
      assert s == a + [Digit(n % 10)];
      assert s[..|s| - 1] == a;
      DecimalStringValue(n / 10);
    }
  }

  /** Distinct numbers have distinct decimal spellings. */
  lemma {:induction false} DecimalStringInjective(m: nat, n: nat)
    requires DecimalString(m) == DecimalString(n)
    ensures m == n
  {
    var s := DecimalString(m);
    if m < 10 && n < 10 {
      assert s[0] == Digit(m) && s[0] == Digit(n);
    } else if m >= 10 && n >= 10 {
      var a, b := DecimalString(m / 10), DecimalString(n / 10);
      assert s == a + [Digit(m % 10)];
      assert s == b + [Digit(n % 10)];
      assert |a| == |b|;
      assert a == s[..|a|] && b == s[..|b|];
      DecimalStringInjective(m / 10, n / 10);
      assert Digit(m % 10) == s[|s| - 1] == Digit(n % 10);
    }
  }
}

=== FILE: tooltip.dfy ===
/** The link tooltip shown while the pointer hovers a link in the preview:
    its label text and where it is placed. Window-system coordinates are
    Python integers, so no wrap-around is involved. */
module Tooltips {

  /** Longest URL shown in full; longer ones are cut here. */
  const MaxLabelUrl: nat := 75
  /** Vertical gap between the pointer and the tooltip. */
  const PointerGap: int := 15

  /** Where the tooltip window is moved to. */
  datatype Placement = Placement(x: int, y: int)

  /** The sizes and positions the tooltip placement reads from the window
      system: the pointer, the editor window's left edge and width, and the
      width of the tooltip once its text is laid out. */
  datatype Geometry = Geometry(
    xPointer: int, yPointer: int, xWindow: int, widthWindow: int, widthTooltip: int)

  /** The label shown for a hovered link: the URL itself when it has at most
      75 characters, otherwise its first 75 characters followed by three
      dots. */
  function TooltipText(url: string): (text: string)
    ensures |text| <= MaxLabelUrl + 3
    ensures |url| <= MaxLabelUrl ==> text == url
    ensures |url| > MaxLabelUrl ==>
      |text| == MaxLabelUrl + 3 &&
      text[..MaxLabelUrl] == url[..MaxLabelUrl] && text[MaxLabelUrl..] == "..."
  {
    if |url| > MaxLabelUrl then url[..MaxLabelUrl] + "..." else url
  }

  /** Labelling a label again changes nothing: a cut label is 78 characters
      long, is cut again at the same place and gets the same "..." back. */
  lemma {:induction false} TooltipTextIdempotent(url: string)
    ensures TooltipText(TooltipText(url)) == TooltipText(url)
  {
    var text := TooltipText(url);
    if |url| > MaxLabelUrl {
      assert text[..MaxLabelUrl] + "..." == text;
    }
  }

  /** The tooltip sits 15 below the pointer; it starts at the pointer's x
      unless its right edge would pass the editor window's right edge, in
      which case it is shifted left by exactly the overflow. */
  function TooltipPosition(g: Geometry): (p: Placement)
    ensures p.y == g.yPointer + PointerGap
    ensures p.x <= g.xPointer
    ensures p.x + g.widthTooltip <= g.xWindow + g.widthWindow
    ensures g.xPointer + g.widthTooltip <= g.xWindow + g.widthWindow ==> p.x == g.xPointer
    ensures g.xPointer + g.widthTooltip > g.xWindow + g.widthWindow ==>
      p.x + g.widthTooltip == g.xWindow + g.widthWindow
  {
    var xOverflow := (g.xPointer + g.widthTooltip) - (g.xWindow + g.widthWindow);
    var x := if xOverflow > 0 then g.xPointer - xOverflow else g.xPointer;
    Placement(x, g.yPointer + PointerGap)
  }

  /** The placement is the rightmost x at or left of the pointer that keeps
      the tooltip inside the window's right edge. */
  lemma TooltipPositionIsRightmost(g: Geometry, x: int)
    requires x <= g.xPointer && x + g.widthTooltip <= g.xWindow + g.widthWindow
    ensures x <= TooltipPosition(g).x
  {
  }

  /** The left shift never pushes the tooltip past the window's left edge
      when the pointer is inside the window and the tooltip is no wider than
      the window. */
  lemma TooltipStaysRightOfWindowEdge(g: Geometry)
    requires g.xWindow <= g.xPointer && 0 <= g.widthTooltip <= g.widthWindow
    ensures g.xWindow <= TooltipPosition(g).x
  {
  }
}

=== FILE: uri.dfy ===
/** The two URI rewrites of the plugin: the base URI handed to the embedded
    view together with the rendered HTML (`uriToBase`), and the URL typed into
    the "Go to another URL" dialog (`goToAnotherUrl`). */
module Uris {
  import opened Wrappers
  import opened Text

  /** The directory part of a URI: everything up to and including its last
      slash. A URI with no slash at all has the base "/". */
  function UriToBase(uri: string): (base: string)
    ensures 1 <= |base| && base[|base| - 1] == '/'
    ensures LastIndexOf(uri, '/').None? ==> base == "/"
    ensures LastIndexOf(uri, '/').Some? ==>
      var i := LastIndexOf(uri, '/').value;
      base == uri[..i + 1] && forall j :: i < j < |uri| ==> uri[j] != '/'
  {
    match LastIndexOf(uri, '/')
    case None => "/"
    case Some(i) => uri[..i] + "/"
  }

  /** The base keeps the directory part of the URI: it is a prefix of the URI
      whenever the URI contains a slash. */
  lemma {:induction false} UriToBaseIsPrefix(uri: string)
    requires '/' in uri
    ensures StartsWith(uri, UriToBase(uri))
  {
    var k :| 0 <= k < |uri| && uri[k] == '/';
    assert LastIndexOf(uri, '/').Some?;
  }

  /** A string ending in a slash is its own last-slash partition head plus
      the slash. */
  lemma {:induction false} LastSlashOfDirectory(s: string)
    requires 1 <= |s| && s[|s| - 1] == '/'
    ensures LastIndexOf(s, '/') == Some(|s| - 1)
  {
  }

  /** Taking the base of a base changes nothing. */
  lemma {:induction false} UriToBaseIdempotent(uri: string)
    ensures UriToBase(UriToBase(uri)) == UriToBase(uri)
  {
    var base := UriToBase(uri);
    LastSlashOfDirectory(base);
    assert base[..|base| - 1] + "/" == base;
  }

  /** The two special cases the source comments on, as the preview passes
      them: the blank preview URI "file:///" is its own base, and an unsaved
      document, whose display name is "Untitled Document N" and which is
      therefore shown as "file://Untitled Document N", gets the base
      "file://". */
  lemma UriToBaseSpecialCases(n: nat)
    ensures UriToBase("file:///") == "file:///"
    ensures UriToBase("file://Untitled Document " + DecimalString(n)) == "file://"
    ensures UriToBase("file:///a/b.md") == "file:///a/"
  {
    LastSlashOfDirectory("file:///");
    var untitled := "file://Untitled Document " + DecimalString(n);
    assert untitled[6] == '/';
    assert forall j :: 7 <= j < |untitled| ==> untitled[j] != '/';
    assert LastIndexOf(untitled, '/') == Some(6);
    var doc := "file:///a/b.md";
    assert doc[9] == '/' && doc[10] == 'b' && doc[11] == '.' && doc[12] == 'm' && doc[13] == 'd';
    assert LastIndexOf(doc, '/') == Some(9);
  }

  /** What `goToAnotherUrl` hands to `load_uri` for the text entered in the
      dialog: nothing for an empty answer, `file://` + path for an absolute
      path, the text unchanged otherwise. */
  function EnteredUrlTarget(entered: string): (target: Option<string>)
    ensures target.None? <==> entered == ""
    ensures target.Some? ==> !StartsWith(target.value, "/")
    ensures target.Some? ==>
      var t := target.value;
      |entered| <= |t| && t[|t| - |entered|..] == entered
    ensures StartsWith(entered, "/") ==> target == Some("file://" + entered)
    ensures entered != "" && !StartsWith(entered, "/") ==> target == Some(entered)
  {
    if entered == "" then None
    else if StartsWith(entered, "/") then
      var local := "file://" + entered;
      assert local[0] == 'f';
      Some(local)
    else Some(entered)
  }
}
